=== FILE: README.md ===
# CORS checker: a Dafny model of the probe's decision logic

The CORS checker asks a target server whether it lets a given origin make
cross-origin requests. `check_cors` in `cors_checker.py` sends an OPTIONS
preflight request and then the actual request. It reads
`Access-Control-Allow-Origin` from both responses and returns `True` only when
both responses carry the header and both admit the origin. `cors_check_mcp.py`
exposes the probe as an MCP tool. That adapter splits a comma-separated header
string into tokens and turns the boolean into a Korean reply string.

This project models all of that as pure functions. The network is not modelled:
each HTTP exchange is an `Outcome` given as input. `CorsChecker.CheckCors`
returns a `Probe`: the verdict (`Returned(bool)` or `Raised(reason)`) plus the
list of requests the probe sends, each with its method, URL and header dict.
That makes properties like "no request for an invalid target" and "no actual
request after a failed preflight" statable.

Modules, one file each:

- `Wrappers` (`wrappers.dfy`): `Option`.
- `Text` (`text.dfy`): the Python string operations the code uses, over ASCII:
  `strip()`, `split(',')`, `','.join(...)`, the substring test `a in b`, and
  `lower()`.
- `Headers` (`headers.dfy`): a request header dict. It is an ordered list of
  distinct names, and assigning a name that is already present overwrites its
  value in place. Also response header lookup: names match ignoring ASCII case,
  and the last occurrence wins.
- `Url` (`url.dfy`): `validate_url`. It uses the part of `urlsplit` that finds
  the scheme and the network location.
- `CorsChecker` (`cors_checker.dfy`): preflight headers, custom-header parsing,
  the authorization test, and `check_cors` itself.
- `CorsCheckMcp` (`cors_check_mcp.dfy`): the header-string tokenizer, the
  reply selection, and the MCP tool put together.

Behaviour of the code a reader might not expect:

- Only the target URL is validated. The origin is never checked (`OriginNotValidated`).
- `Access-Control-Request-Headers` holds the raw tokens joined by `,`, including
  any `:value` parts. It does not hold just the header names (`SingleHeaderRequests`).
- A token without a colon becomes a header name exactly as written. It is not
  stripped.
- The timeout is fixed in the code. Timeouts, connection errors and other
  `RequestException`s all end the probe the same way: it returns `False`.
- Any other exception escapes `check_cors`. The MCP tool turns it into an
  `오류: ...` reply.

## Model

| member | source | states |
|---|---|---|
| Text.Strip | cors_checker.py:98 | `strip()` returns a contiguous piece of its input with no whitespace at either end; only whitespace is cut off around it |
| Text.StripPadding | cors_checker.py:98 | whitespace padding on either side of a trimmed string is exactly what `strip()` removes |
| Text.StripFixesTrimmed | cors_check_mcp.py:38 | `strip()` leaves a string unchanged iff the string has no surrounding whitespace |
| Text.Join | cors_checker.py:54 | `','.join(...)` of no tokens is empty and of one token is that token; otherwise the result begins with the first token and ends with the last |
| Text.Split | cors_check_mcp.py:38 | `split(',')` returns one more piece than there are commas, and no piece contains a comma (empty pieces are kept) |
| Text.JoinSplit | cors_check_mcp.py:38 | joining the pieces of `split(',')` with `,` gives back the original string |
| Text.SplitJoin | cors_checker.py:54 | splitting a `,`-join of comma-free tokens recovers the tokens, so the joined request-headers value loses nothing |
| Text.Contains | cors_checker.py:74 | `origin in allowed_origin` holds whenever the value starts with the origin, and never when the origin is longer than the value |
| Text.ContainsIffOccurs | cors_checker.py:74 | the `origin in allowed_origin` test holds iff the origin occurs at some position of the value |
| Headers.Put | cors_checker.py:98-101 | dict assignment: the name maps to the new value, other names are untouched, the key set gains only the name, existing keys keep their positions, and a new name becomes the last entry |
| Headers.PutKeepsPosition | cors_checker.py:98-101 | assigning any name leaves every key already in the dict at the same position |
| Headers.PutNewAtEnd | cors_checker.py:98-101 | assigning a name the dict lacks places it after all existing keys |
| Headers.Lookup | cors_checker.py:68-73 | response lookup is absent iff no field has the name in any letter case; otherwise it returns the value of the last such field |
| Headers.LookupIgnoresCase | cors_checker.py:68 | names that differ only in ASCII case find the same response field |
| Url.SplitUrl | cors_checker.py:17-19 | the model's split fails only on a string with a square bracket, standing for the unmatched-bracket `ValueError`; the network location it finds holds no `/`, `?` or `#` and has balanced brackets; a non-empty scheme means the text before the first `:` is a valid scheme name |
| Url.ValidateUrl | cors_checker.py:14-20 | an accepted URL starts with a scheme name followed by `://` and a non-empty network location: the character after `://` is not `/`, `?` or `#` |
| Url.ComposedUrlSplits | cors_checker.py:14-20 | every `scheme://host[/...]` URL splits into its lower-cased scheme and its host, so it is accepted |
| Url.NoColonRejected | cors_checker.py:14-20 | a string without `:` has no scheme, so it is rejected (`example.com`, `not-a-url`) |
| Url.NoAuthorityRejected | cors_checker.py:14-20 | a scheme not followed by `//` leaves the network location empty, so the URL is rejected |
| Url.EmptyAuthorityRejected | cors_checker.py:14-20 | a scheme followed by `://` and then nothing, or directly by `/`, `?` or `#` (`http://`, `file:///etc`), has an empty network location, so the URL is rejected |
| CorsChecker.PreflightHeaders | cors_checker.py:48-54 | the OPTIONS headers always map `Origin` to the origin and `Access-Control-Request-Method` to the method; `Access-Control-Request-Headers` is present iff the token list is non-empty, and then it is the tokens joined by `,`; there are no other keys; the keys come in that order: `Origin`, the method, then the request-headers entry |
| CorsChecker.TokenName | cors_checker.py:96-101 | a token without a colon names the header exactly as written; with a colon, the name is stripped and holds no colon |
| CorsChecker.TokenValue | cors_checker.py:96-101 | a token without a colon gives the empty value; with a colon, the value is stripped |
| CorsChecker.ParseToken | cors_checker.py:96-101 | a token with a colon gives a colon-free, stripped name and a stripped value; a token without one gives itself, unstripped, with an empty value |
| CorsChecker.TokenWithColon | cors_checker.py:96-98 | a token is split at its first colon: the stripped text before it becomes the name and the stripped text after it (colons included) becomes the value |
| CorsChecker.ParseTokenRoundTrip | cors_checker.py:96-98 | `name:value` with any whitespace around either part parses back to that name and value, even when the value contains colons |
| CorsChecker.TokenNames | cors_checker.py:94-101 | a name is contributed iff some token parses to it |
| CorsChecker.ApplyTokens | cors_checker.py:90-101 | the actual-request dict has distinct keys, `Origin` is its first key, and its keys are exactly `Origin` and the token names |
| CorsChecker.KeysInFirstOrder | cors_checker.py:90-101 | the actual-request dict lists names in the order the tokens first give them: a name first given by token `j` (other than `Origin`) comes after the name of every earlier token, whatever later tokens assign |
| CorsChecker.ActualHeaders | cors_checker.py:90-101 | the actual-request dict has distinct keys and starts with `Origin`; its keys are `Origin` plus the token names when there are tokens, and then it is the dict the tokens build (so `KeysInFirstOrder` and `LastTokenWins` apply); without tokens it maps `Origin` to the origin |
| CorsChecker.LastTokenWins | cors_checker.py:93-101 | a name maps to the value of the last token that names it; a token named `Origin` replaces the origin |
| CorsChecker.UnnamedKeepsDefault | cors_checker.py:90-101 | a name that no token gives is absent from the actual request, except `Origin`, which keeps the probe's origin |
| CorsChecker.EvaluatePhase | cors_checker.py:68-74 | the header-present flag is set iff some response field is `Access-Control-Allow-Origin` in any case, and the origin is never admitted without it |
| CorsChecker.Authorizes | cors_checker.py:68-74 | a phase admits the origin exactly when its evaluation admits it, and only when the response carries `Access-Control-Allow-Origin` |
| CorsChecker.AuthorizesIff | cors_checker.py:68-74 | a phase admits the origin iff the last `Access-Control-Allow-Origin` field is `*` or contains the origin at some position |
| CorsChecker.WildcardAuthorizes | cors_checker.py:74 | the value `*` admits every origin |
| CorsChecker.ExactOriginAuthorizes | cors_checker.py:74 | a value equal to the origin admits it |
| CorsChecker.MissingHeaderRejects | cors_checker.py:68-72 | without the header no origin is admitted |
| CorsChecker.SubstringAdmitsLongerValue | cors_checker.py:74 | a value that merely starts with the origin (a longer host name) admits it: the test is containment, not equality |
| CorsChecker.CheckCors | cors_checker.py:36-146 | an invalid target returns `False` with no request; otherwise the first request is the OPTIONS preflight; the actual request is sent iff the preflight got a response; the result is `True` iff both phases responded and both admit the origin; an exception other than `RequestException` escapes iff it happens in a phase that ran, and the escaping exception is the preflight's if that one failed, else the actual request's |
| CorsChecker.VerboseIsOutputOnly | cors_checker.py:40-44 | `verbose` changes neither the result nor the requests sent |
| CorsChecker.OriginNotValidated | cors_checker.py:36-38 | a valid target with an origin that is not a URL still sends both requests, and wildcard responses admit it |
| CorsCheckMcp.Tokenize | cors_check_mcp.py:36-38 | an absent or empty string gives no token list; otherwise there is one token per comma plus one, token `i` is the `i`-th comma-separated piece stripped, and each token is stripped and comma-free |
| CorsCheckMcp.PaddedTokensRoundTrip | cors_check_mcp.py:36-38 | stripped, comma-free tokens written with any whitespace around each and joined by `,` tokenize back to exactly those tokens |
| CorsCheckMcp.UnpaddedPiecesTrimmed | cors_check_mcp.py:38 | when no whitespace touches a comma or an end of the string, every piece of the split is already stripped |
| CorsCheckMcp.TrimmedPiecesAreTokens | cors_check_mcp.py:38 | when every piece is already stripped, the tokens are exactly the split pieces |
| CorsCheckMcp.TokensRejoin | cors_check_mcp.py:38 | for such a string, joining the tokens with `,` (as the preflight does) gives back the string |
| CorsCheckMcp.EmptyPiecesKept | cors_check_mcp.py:38 | `a,,b` gives the three tokens `a`, an empty token, and `b` |
| CorsCheckMcp.Summary | cors_check_mcp.py:51-54 | the positive summary is chosen iff the result is `True`, the negative one iff it is `False` |
| CorsCheckMcp.Reply | cors_check_mcp.py:50-70 | outside verbose mode (or with no captured output) a returned result gives exactly one of the two summaries, the positive one iff the result is `True`; in verbose mode with captured output the reply is that output stripped; an exception gives `오류: ` plus the reason, followed by the failure note only in verbose mode |
| CorsCheckMcp.ErrorReplyIsNoSummary | cors_check_mcp.py:65-70 | outside verbose mode an error reply never equals a summary |
| CorsCheckMcp.CheckCorsTool | cors_check_mcp.py:36-70 | a returned result is answered with the summary for that result (the positive one iff it is `True`) unless verbose mode captured output, and then with that output stripped; an escaping exception is answered with `오류: ` and its reason, followed by the failure note only in verbose mode |
| CorsCheckMcp.SingleHeaderRequests | cors_check_mcp.py:36-46 | for one `name:value` header, the preflight's request-headers value is the whole token, and the actual request carries `name: value` next to `Origin` |
| CorsCheckMcp.NameValueToken | cors_checker.py:96-98 | a token written as a stripped, colon-free name, a colon and a stripped value parses to exactly that name and value |

## Left out

- HTTP itself (`requests.options`, `requests.request`): each exchange is an input `Outcome`. This covers the fixed 10-second timeout and which exception subclass was raised. Headers that `requests` adds on its own, such as `User-Agent`, are also out. So is the library's own header validation: a header it refuses is just a `RequestFailed` outcome.
- Headers.Lookup and CorsChecker.AuthorizesIff: a repeated response field is answered by its last occurrence. The HTTP stack instead joins repeated fields with `, `. For example, two `Access-Control-Allow-Origin: *` fields reach the program as `*, *`, which the program rejects for any ordinary origin, while the model admits them. That code is not part of this model.
- `urlparse` beyond scheme and network location. The model leaves out the stripping of leading control characters and spaces, the removal of tab and newline characters, the IPv6 address check inside brackets, and the NFKC normalisation check on a non-ASCII network location (`http://a℀b` raises `ValueError`, because `℀` normalises to `a/c`). Only an unmatched bracket is modelled as the parse error, so the model accepts URLs that `urlparse` rejects through those checks.
- Python's Unicode whitespace in `strip()` and Unicode lower-casing: the model covers ASCII only.
- All printed text, `argparse`, `main` and `sys.exit` (cors_checker.py:148-169).
- The MCP framework: server setup, the `redirect_stdout` capture, the help resource and the prompt. The captured output is an input to `CorsCheckMcp.Reply`.
- CorsCheckMcp.Reply and CorsCheckMcp.CheckCorsTool take the captured output as a free input. In the program, a verbose probe always prints something (cors_checker.py:37 or :41), so the verbose fallback to the summary (cors_check_mcp.py:60-61) never runs; the model keeps that branch and does not tie the captured text to the probe.
- Exceptions raised inside the MCP tool itself (for example a `headers` value that is not a string): Python's dynamic typing rules these out in the model.

=== FILE: cors_check_mcp.dfy ===
/**
  The pure parts of the MCP tool `check_cors`: turning the comma-separated
  header string into tokens, and choosing the reply string. The text the
  probe prints (captured from standard output) is a parameter.
*/
module CorsCheckMcp {
  import opened Wrappers
  import opened Text
  import opened Headers
  import opened CorsChecker

  const SUMMARY_OK := "CORS가 올바르게 구성되어 있습니다"
  const SUMMARY_NOT_OK := "CORS가 올바르게 구성되어 있지 않습니다"
  const ERROR_PREFIX := "오류: "
  const FAILURE_SUFFIX := "\nCORS 확인 실패."

  /**
    `[h.strip() for h in headers.split(",")]`, or no list at all when the
    string is absent or empty.
  */
  function Tokenize(headers: Option<string>): (tokens: Option<seq<string>>)
    ensures tokens.None? <==> headers.None? || headers.value == ""
    ensures tokens.Some? ==> |tokens.value| == Count(headers.value, ',') + 1
    ensures tokens.Some? ==> forall i :: 0 <= i < |tokens.value| ==>
      Trimmed(tokens.value[i]) && ',' !in tokens.value[i]
    ensures tokens.Some? ==> forall i :: 0 <= i < |tokens.value| ==>
      tokens.value[i] == Strip(Split(headers.value, ',')[i])
  {
    if headers.None? || headers.value == "" then None
    else
      var parts := Split(headers.value, ',');
      assert forall i :: 0 <= i < |parts| ==> ',' !in parts[i];
      Some(seq(|parts|, i requires 0 <= i < |parts| => StripOut(parts[i], ',')))
  }

  /** `strip()` of a piece that holds no `c` holds no `c` either. */
  function StripOut(s: string, c: char): (r: string)
    requires c !in s
    ensures r == Strip(s) && c !in r
  {
    StripKeepsOut(s, c);
    Strip(s)
  }

  /** No whitespace character is at either end of `s` or next to a comma. */
  predicate Unpadded(s: string) {
    forall i :: 0 <= i < |s| && IsSpace(s[i]) ==>
      0 < i < |s| - 1 && s[i - 1] != ',' && s[i + 1] != ','
  }

  /** Every piece of a split is already stripped, so the tokens are the raw pieces. */
  lemma {:induction false} UnpaddedPiecesTrimmed(s: string)
    requires Unpadded(s)
    ensures forall i :: 0 <= i < |Split(s, ',')| ==> Trimmed(Split(s, ',')[i])
    decreases |s|
  {
    if ',' in s {
      var k := IndexOf(s, ',');
      var rest := s[k + 1..];
      assert Unpadded(rest) by {
        forall j | 0 <= j < |rest| && IsSpace(rest[j])
          ensures 0 < j < |rest| - 1 && rest[j - 1] != ',' && rest[j + 1] != ','
        {
          assert rest[j] == s[k + 1 + j];
        }
      }
      UnpaddedPiecesTrimmed(rest);
      assert Trimmed(s[..k]) by {
        if k > 0 {
          assert s[..k][0] == s[0];
          assert s[..k][k - 1] == s[k - 1];
        }
      }
      var parts := Split(s, ',');
      assert parts == [s[..k]] + Split(rest, ',');
      forall i | 0 <= i < |parts| ensures Trimmed(parts[i]) {
        if i > 0 {
          assert parts[i] == Split(rest, ',')[i - 1];
        }
      }
    }
  }

  /** When every piece of the split is already stripped, the tokens are exactly the pieces. */
  lemma TrimmedPiecesAreTokens(headers: string)
    requires headers != ""
    requires forall i :: 0 <= i < |Split(headers, ',')| ==> Trimmed(Split(headers, ',')[i])
    ensures Tokenize(Some(headers)) == Some(Split(headers, ','))
  {
    var parts := Split(headers, ',');
    var tokens := Tokenize(Some(headers)).value;
    forall i | 0 <= i < |parts| ensures tokens[i] == parts[i] {
      StripFixesTrimmed(parts[i]);
    }
    assert tokens == parts;
  }

  /**
    When no whitespace touches a comma or either end of the string, the
    preflight's comma-join of the tokens reproduces the header string.
  */
  lemma TokensRejoin(headers: string)
    requires headers != "" && Unpadded(headers)
    ensures Join(Tokenize(Some(headers)).value, ",") == headers
  {
    UnpaddedPiecesTrimmed(headers);
    TrimmedPiecesAreTokens(headers);
    JoinSplit(headers, ',');
  }

  /** Empty pieces are kept: `"a,,b"` gives three tokens, the middle one empty. */
  lemma EmptyPiecesKept(a: string, b: string)
    requires ',' !in a && ',' !in b && Trimmed(a) && Trimmed(b)
    ensures Tokenize(Some(a + ",," + b)) == Some([a, "", b])
  {
    SplitDoubleComma(a, b);
    TrimmedPiecesAreTokens(a + ",," + b);
  }

  lemma SplitDoubleComma(a: string, b: string)
    requires ',' !in a && ',' !in b
    ensures Split(a + ",," + b, ',') == [a, "", b]
  {
    assert ",," == [',', ','];
    Regroup(a, b, ',');
    SplitDoubleSeparator(a, b, ',');
  }

  lemma Regroup(a: string, b: string, c: char)
    ensures a + [c, c] + b == a + [c] + ([c] + b)
  {
    assert [c, c] == [c] + [c];
  }

  lemma SplitDoubleSeparator(a: string, b: string, c: char)
    requires c !in a && c !in b
    ensures Split(a + [c] + ([c] + b), c) == [a, [], b]
  {
    SplitAtFirst(a, [c] + b, c);
    SplitLeadingSeparator(b, c);
    assert [a] + [[], b] == [a, [], b];
  }

  lemma SplitLeadingSeparator(b: string, c: char)
    requires c !in b
    ensures Split([c] + b, c) == [[], b]
  {
    assert [c] + b == [] + [c] + b;
    SplitAtFirst([], b, c);
    SplitFree(b, c);
  }

  /** The fixed summary line for a result; the two lines differ. */
  function Summary(ok: bool): (line: string)
    ensures (line == SUMMARY_OK) == ok && (line == SUMMARY_NOT_OK) == !ok
  {
    if ok then SUMMARY_OK else SUMMARY_NOT_OK
  }

  /**
    The reply of the tool. A returned result gives its summary line, or in
    verbose mode the stripped captured output when there is any; an
    exception gives the error line, with the failure note in verbose mode.
  */
  function Reply(verdict: Verdict, verbose: bool, captured: string): (reply: string)
    ensures verdict.Returned? && (!verbose || captured == "") ==>
      (reply == SUMMARY_OK || reply == SUMMARY_NOT_OK) && (reply == SUMMARY_OK <==> verdict.ok)
    ensures verdict.Returned? && verbose && captured != "" ==> reply == Strip(captured)
    ensures verdict.Raised? ==>
      && ERROR_PREFIX <= reply
      && reply[|ERROR_PREFIX|..] == verdict.reason + (if verbose then FAILURE_SUFFIX else "")
  {
    match verdict
    case Returned(ok) =>
      if verbose && captured != "" then Strip(captured) else Summary(ok)
    case Raised(e) =>
      var message := ERROR_PREFIX + e;
      if verbose then message + FAILURE_SUFFIX else message
  }

  /** Outside verbose mode an error reply can never be mistaken for a summary. */
  lemma ErrorReplyIsNoSummary(reason: string, ok: bool)
    ensures Reply(Raised(reason), false, "") != Summary(ok)
  {
    var reply := Reply(Raised(reason), false, "");
    assert reply[0] == ERROR_PREFIX[0];
    assert Summary(ok)[0] == 'C';
  }

  /**
    The MCP tool: tokenize, run the probe, choose the reply. A returned
    result is answered with its summary line, unless verbose mode captured
    output, which is then the reply; an exception gives the error line with
    its reason, followed by the failure note in verbose mode.
  */
  function CheckCorsTool(origin: string, target: string, verb: string, headers: Option<string>,
                         verbose: bool, preflight: Outcome, actual: Outcome, captured: string): (reply: string)
    ensures var p := CheckCors(origin, target, verb, Tokenize(headers), verbose, preflight, actual);
      && (!verbose ==> (reply == SUMMARY_OK <==> p.verdict == Returned(true)))
      && (p.verdict.Returned? && (!verbose || captured == "") ==> reply == Summary(p.verdict.ok))
      && (p.verdict.Returned? && verbose && captured != "" ==> reply == Strip(captured))
      && (p.verdict.Raised? ==> ERROR_PREFIX <= reply)
      && (p.verdict.Raised? ==> reply == ERROR_PREFIX + p.verdict.reason + (if verbose then FAILURE_SUFFIX else ""))
  {
    var probe := CheckCors(origin, target, verb, Tokenize(headers), verbose, preflight, actual);
    ReplyFacts(probe.verdict, verbose, captured);
    Reply(probe.verdict, verbose, captured)
  }

  lemma ReplyFacts(verdict: Verdict, verbose: bool, captured: string)
    ensures var reply := Reply(verdict, verbose, captured);
      && (!verbose ==> (reply == SUMMARY_OK <==> verdict == Returned(true)))
      && (verdict.Returned? && (!verbose || captured == "") ==> reply == Summary(verdict.ok))
      && (verdict.Raised? ==> reply == ERROR_PREFIX + verdict.reason + (if verbose then FAILURE_SUFFIX else ""))
  {
    if verdict.Raised? && !verbose {
      ErrorReplyIsNoSummary(verdict.reason, true);
    }
  }

  /**
    A single `name:value` header through the tool: the preflight announces
    the whole token, value included, and the actual request carries the
    header with its value next to the origin.
  */
  lemma SingleHeaderRequests(origin: string, target: string, verb: string, name: string, value: string,
                             verbose: bool, status: int, fields: HeaderList, actual: Outcome)
    requires Url.ValidateUrl(target)
    requires name != "" && name != ORIGIN && Trimmed(name) && Trimmed(value)
    requires ':' !in name && ',' !in name && ',' !in value
    ensures var probe := CheckCors(origin, target, verb, Tokenize(Some(name + ":" + value)),
                                   verbose, Responded(status, fields), actual);
      && |probe.requests| == 2
      && Get(probe.requests[0].headers, REQUEST_HEADERS) == Some(name + ":" + value)
      && Get(probe.requests[1].headers, name) == Some(value)
      && Get(probe.requests[1].headers, ORIGIN) == Some(origin)
  {
    var token := name + ":" + value;
    SingleToken(name, value);
    OneTokenProbe(origin, target, verb, token, verbose, status, fields, actual);
    SingleTokenHeaders(origin, name, value);
  }

  lemma OneTokenProbe(origin: string, target: string, verb: string, token: string,
                      verbose: bool, status: int, fields: HeaderList, actual: Outcome)
    requires Url.ValidateUrl(target)
    ensures var probe := CheckCors(origin, target, verb, Some([token]), verbose, Responded(status, fields), actual);
      && |probe.requests| == 2
      && Get(probe.requests[0].headers, REQUEST_HEADERS) == Some(token)
      && probe.requests[1].headers == ApplyTokens(origin, [token])
  {
    assert HasTokens(Some([token]));
  }

  lemma SingleToken(name: string, value: string)
    requires name != "" && Trimmed(name) && Trimmed(value) && ',' !in name && ',' !in value
    ensures Tokenize(Some(name + ":" + value)) == Some([name + ":" + value])
  {
    var token := name + ":" + value;
    assert ',' !in token by {
      assert token == name + ([':'] + value);
    }
    assert Trimmed(token) by {
      assert token[0] == name[0];
      if |value| > 0 {
        assert token[|token| - 1] == value[|value| - 1];
      }
    }
    assert Split(token, ',') == [token];
    TrimmedPiecesAreTokens(token);
  }

  lemma SingleTokenHeaders(origin: string, name: string, value: string)
    requires name != ORIGIN && Trimmed(name) && Trimmed(value) && ':' !in name
    ensures Get(ApplyTokens(origin, [name + ":" + value]), name) == Some(value)
    ensures Get(ApplyTokens(origin, [name + ":" + value]), ORIGIN) == Some(origin)
  {
    var tokens := [name + ":" + value];
    NameValueToken(name, value);
    assert LastNaming(tokens, name, 0);
    LastTokenWins(origin, tokens, name, 0);
    assert TokenName(tokens[0]) != ORIGIN;
    UnnamedKeepsDefault(origin, tokens, ORIGIN);
  }

  lemma NameValueToken(name: string, value: string)
    requires Trimmed(name) && Trimmed(value) && ':' !in name
    ensures TokenName(name + ":" + value) == name && TokenValue(name + ":" + value) == value
  {
    TokenWithColon(name, value);
    StripFixesTrimmed(name);
    StripFixesTrimmed(value);
  }

  /** Each token wrapped in whitespace on either side, as a user might type `"A:1, B:2"`. */
  function Padded(tokens: seq<string>, lefts: seq<string>, rights: seq<string>): (padded: seq<string>)
    requires |lefts| == |tokens| && |rights| == |tokens|
    ensures |padded| == |tokens|
  {
    seq(|tokens|, i requires 0 <= i < |tokens| => lefts[i] + tokens[i] + rights[i])
  }

  /**
    Stripped, comma-free tokens survive being written with whitespace around
    each one: joining them with `,` and tokenizing gives them back.
  */
  lemma PaddedTokensRoundTrip(tokens: seq<string>, lefts: seq<string>, rights: seq<string>)
    requires |lefts| == |tokens| && |rights| == |tokens|
    requires forall i :: 0 <= i < |tokens| ==> Trimmed(tokens[i]) && ',' !in tokens[i]
    requires forall i :: 0 <= i < |tokens| ==> AllSpace(lefts[i]) && AllSpace(rights[i])
    requires Join(Padded(tokens, lefts, rights), ",") != ""
    ensures Tokenize(Some(Join(Padded(tokens, lefts, rights), ","))) == Some(tokens)
  {
    var padded := Padded(tokens, lefts, rights);
    PaddedPiecesCommaFree(tokens, lefts, rights);
    CommaJoinSplits(padded);
    PaddedPiecesStrip(tokens, lefts, rights);
    TokenizeByPieces(Join(padded, ","), tokens);
  }

  /** Tokenizing yields `tokens` when they are the stripped comma-separated pieces. */
  lemma TokenizeByPieces(text: string, tokens: seq<string>)
    requires text != "" && |Split(text, ',')| == |tokens|
    requires forall i :: 0 <= i < |tokens| ==> Strip(Split(text, ',')[i]) == tokens[i]
    ensures Tokenize(Some(text)) == Some(tokens)
  {
    var result := Tokenize(Some(text)).value;
    assert |result| == |tokens|;
    forall i | 0 <= i < |tokens| ensures result[i] == tokens[i] {
    }
    assert result == tokens;
  }

  lemma CommaJoinSplits(parts: seq<string>)
    requires Join(parts, ",") != ""
    requires forall i :: 0 <= i < |parts| ==> ',' !in parts[i]
    ensures Split(Join(parts, ","), ',') == parts
  {
    assert [','] == ",";
    SplitJoin(parts, ',');
  }

  lemma PaddedPiecesStrip(tokens: seq<string>, lefts: seq<string>, rights: seq<string>)
    requires |lefts| == |tokens| && |rights| == |tokens|
    requires forall i :: 0 <= i < |tokens| ==> Trimmed(tokens[i])
    requires forall i :: 0 <= i < |tokens| ==> AllSpace(lefts[i]) && AllSpace(rights[i])
    ensures forall i :: 0 <= i < |tokens| ==> Strip(Padded(tokens, lefts, rights)[i]) == tokens[i]
  {
    var padded := Padded(tokens, lefts, rights);
    forall i | 0 <= i < |tokens| ensures Strip(padded[i]) == tokens[i] {
      StripPadding(lefts[i], tokens[i], rights[i]);
    }
  }

  lemma PaddedPiecesCommaFree(tokens: seq<string>, lefts: seq<string>, rights: seq<string>)
    requires |lefts| == |tokens| && |rights| == |tokens|
    requires forall i :: 0 <= i < |tokens| ==> ',' !in tokens[i]
    requires forall i :: 0 <= i < |tokens| ==> AllSpace(lefts[i]) && AllSpace(rights[i])
    ensures forall i :: 0 <= i < |tokens| ==> ',' !in Padded(tokens, lefts, rights)[i]
  {
    var padded := Padded(tokens, lefts, rights);
    forall i | 0 <= i < |tokens| ensures ',' !in padded[i] {
      PaddingKeepsOut(lefts[i], tokens[i], rights[i], ',');
    }
  }

  lemma PaddingKeepsOut(left: string, t: string, right: string, c: char)
    requires AllSpace(left) && AllSpace(right) && c !in t && !IsSpace(c)
    ensures c !in left + t + right
  {
    var s := left + t + right;
    forall k | 0 <= k < |s| ensures s[k] != c {
      if k < |left| {
        assert s[k] == left[k];
      } else if k < |left| + |t| {
        assert s[k] == t[k - |left|];
      } else {
        assert s[k] == right[k - |left| - |t|];
      }
    }
  }
}

=== FILE: cors_checker.dfy ===
/**
  The decision and request-building logic of `check_cors`. The two HTTP
  exchanges are not performed: each is given as an `Outcome`, and the model
  returns the verdict together with the requests the probe would send.
*/
module CorsChecker {
  import opened Wrappers
  import opened Text
  import opened Headers
  import Url

  const ORIGIN := "Origin"
  const REQUEST_METHOD := "Access-Control-Request-Method"
  const REQUEST_HEADERS := "Access-Control-Request-Headers"
  const ALLOW_ORIGIN := "Access-Control-Allow-Origin"
  const PREFLIGHT_METHOD := "OPTIONS"

  /** A request the probe sends: HTTP verb, URL and header dict. */
  datatype Request = Request(verb: string, url: string, headers: HeaderList)

  /**
    What one HTTP exchange produced: a response, a `RequestException`
    (caught by `check_cors`), or any other exception (which escapes it).
  */
  datatype Outcome =
    | Responded(status: int, fields: HeaderList)
    | RequestFailed(reason: string)
    | OtherFailure(reason: string)

  /** How `check_cors` ends: it returns a boolean or raises. */
  datatype Verdict = Returned(ok: bool) | Raised(reason: string)

  /** The verdict and the requests sent, in order. */
  datatype Probe = Probe(verdict: Verdict, requests: seq<Request>)

  /** The two booleans one phase contributes: the header is there, and it admits the origin. */
  datatype PhaseVerdict = PhaseVerdict(corsAllowed: bool, originAllowed: bool)

  /** `if headers:`: an absent list and an empty list both count as no custom headers. */
  predicate HasTokens(tokens: Option<seq<string>>) {
    tokens.Some? && |tokens.value| > 0
  }

  /**
    The header dict of the OPTIONS request. The request-headers entry is the
    raw tokens joined by commas, `:value` parts included.
  */
  function PreflightHeaders(origin: string, verb: string, tokens: Option<seq<string>>): (h: HeaderList)
    ensures DistinctNames(h)
    ensures Get(h, ORIGIN) == Some(origin)
    ensures Get(h, REQUEST_METHOD) == Some(verb)
    ensures REQUEST_HEADERS in Names(h) <==> HasTokens(tokens)
    ensures HasTokens(tokens) ==> Get(h, REQUEST_HEADERS) == Some(Join(tokens.value, ","))
    ensures Names(h) <= {ORIGIN, REQUEST_METHOD, REQUEST_HEADERS}
    ensures h == [(ORIGIN, origin), (REQUEST_METHOD, verb)]
                 + (if HasTokens(tokens) then [(REQUEST_HEADERS, Join(tokens.value, ","))] else [])
  {
    assert ORIGIN[0] != REQUEST_METHOD[0] && REQUEST_METHOD[23] != REQUEST_HEADERS[23];
    var base := [(ORIGIN, origin), (REQUEST_METHOD, verb)];
    assert Names(base) == {ORIGIN, REQUEST_METHOD} by {
      assert base[0].0 == ORIGIN && base[1].0 == REQUEST_METHOD;
    }
    if HasTokens(tokens) then Put(base, REQUEST_HEADERS, Join(tokens.value, ",")) else base
  }

  /**
    The header name a custom-header token gives: the stripped text before the
    first colon, or the whole token, unstripped, when it has no colon.
  */
  function TokenName(token: string): (name: string)
    ensures ':' !in token ==> name == token
    ensures ':' in token ==> Trimmed(name) && ':' !in name
  {
    if ':' in token then
      var before := token[..IndexOf(token, ':')];
      StripKeepsOut(before, ':');
      Strip(before)
    else token
  }

  /**
    The header value a custom-header token gives: the stripped text after the
    first colon, or the empty string when it has no colon.
  */
  function TokenValue(token: string): (value: string)
    ensures ':' !in token ==> value == ""
    ensures ':' in token ==> Trimmed(value)
  {
    if ':' in token then Strip(token[IndexOf(token, ':') + 1..]) else ""
  }

  /**
    The entry one custom-header token adds to the actual request, as the pair
    (`TokenName`, `TokenValue`). `ApplyTokens` uses the two parts directly;
    this pair is the form the token lemmas are stated in. With a colon, the
    text before the first colon and the text after it, both stripped; without
    one, the token itself, unstripped, with an empty value.
  */
  function ParseToken(token: string): (f: Field)
    ensures ':' in token ==> ':' !in f.0 && Trimmed(f.0) && Trimmed(f.1)
    ensures ':' !in token ==> f == (token, "")
  {
    (TokenName(token), TokenValue(token))
  }

  lemma StripKeepsOut(s: string, c: char)
    requires c !in s
    ensures c !in Strip(s)
  {
    var i: nat :| StrippedAt(s, Strip(s), i);
  }

  /** A token splits at its first colon, which is the one after a colon-free name part. */
  lemma TokenWithColon(left: string, right: string)
    requires ':' !in left
    ensures ParseToken(left + ":" + right) == (Strip(left), Strip(right))
  {
    var token := left + ":" + right;
    IndexOfAfterFree(left, ":" + right, ':');
    assert token == left + (":" + right);
    assert token[..|left|] == left;
    assert token[|left| + 1..] == right;
  }

  /**
    A `name:value` token, with any whitespace around either part, parses
    back to that name and value; the value may itself contain colons.
  */
  lemma ParseTokenRoundTrip(name: string, value: string, p1: string, p2: string, p3: string, p4: string)
    requires ':' !in name && Trimmed(name) && Trimmed(value)
    requires AllSpace(p1) && AllSpace(p2) && AllSpace(p3) && AllSpace(p4)
    ensures ParseToken(p1 + name + p2 + ":" + p3 + value + p4) == (name, value)
  {
    var left := p1 + name + p2;
    forall k | 0 <= k < |left| ensures left[k] != ':' {
      assert !IsSpace(':');
      if k < |p1| {
        assert left[k] == p1[k];
      } else if k < |p1| + |name| {
        assert left[k] == name[k - |p1|];
      } else {
        assert left[k] == p2[k - |p1| - |name|];
      }
    }
    assert p1 + name + p2 + ":" + p3 + value + p4 == left + ":" + (p3 + value + p4);
    TokenWithColon(left, p3 + value + p4);
    StripPadding(p1, name, p2);
    StripPadding(p3, value, p4);
  }

  /** The header names the tokens contribute to the actual request. */
  function TokenNames(tokens: seq<string>): (names: set<string>)
    ensures forall n :: n in names <==> exists i :: 0 <= i < |tokens| && TokenName(tokens[i]) == n
    decreases |tokens|
  {
    if |tokens| == 0 then {}
    else
      var before := tokens[..|tokens| - 1];
      var last := tokens[|tokens| - 1];
      assert tokens == before + [last];
      NamesOfSnoc(before, last, TokenNames(before));
      TokenNames(before) + {TokenName(last)}
  }

  lemma NamesOfSnoc(before: seq<string>, last: string, names: set<string>)
    requires forall n :: n in names <==> exists i :: 0 <= i < |before| && TokenName(before[i]) == n
    ensures forall n :: n in names + {TokenName(last)} <==>
      exists i :: 0 <= i < |before + [last]| && TokenName((before + [last])[i]) == n
  {
    var all := before + [last];
    forall n
      ensures n in names + {TokenName(last)} <==> exists i :: 0 <= i < |all| && TokenName(all[i]) == n
    {
      if n in names {
        var i :| 0 <= i < |before| && TokenName(before[i]) == n;
        assert all[i] == before[i];
      } else if n == TokenName(last) {
        assert all[|before|] == last;
      } else {
        forall i | 0 <= i < |all| ensures TokenName(all[i]) != n {
          if i < |before| {
            assert all[i] == before[i];
          }
        }
      }
    }
  }

  /**
    The loop over the custom headers, after `tokens` have been applied in
    order to `{'Origin': origin}`. `Origin` stays the first entry, and the
    keys are `Origin` and the token names, nothing else.
  */
  function ApplyTokens(origin: string, tokens: seq<string>): (h: HeaderList)
    ensures DistinctNames(h)
    ensures |h| > 0 && h[0].0 == ORIGIN
    ensures Names(h) == {ORIGIN} + TokenNames(tokens)
    decreases |tokens|
  {
    if |tokens| == 0 then [(ORIGIN, origin)]
    else
      var before := tokens[..|tokens| - 1];
      var last := tokens[|tokens| - 1];
      Put(ApplyTokens(origin, before), TokenName(last), TokenValue(last))
  }

  /** The header dict of the actual request. */
  function ActualHeaders(origin: string, tokens: Option<seq<string>>): (h: HeaderList)
    ensures DistinctNames(h)
    ensures |h| > 0 && h[0].0 == ORIGIN
    ensures Names(h) == {ORIGIN} + (if HasTokens(tokens) then TokenNames(tokens.value) else {})
    ensures !HasTokens(tokens) ==> Get(h, ORIGIN) == Some(origin)
    ensures HasTokens(tokens) ==> h == ApplyTokens(origin, tokens.value)
  {
    if HasTokens(tokens) then ApplyTokens(origin, tokens.value) else [(ORIGIN, origin)]
  }

  /** Position `i` holds the last token that names `name`. */
  predicate LastNaming(tokens: seq<string>, name: string, i: int) {
    0 <= i < |tokens| && TokenName(tokens[i]) == name
    && forall j :: i < j < |tokens| ==> TokenName(tokens[j]) != name
  }

  /** Position `i` holds the first token that names `name`. */
  predicate FirstNaming(tokens: seq<string>, name: string, i: int) {
    0 <= i < |tokens| && TokenName(tokens[i]) == name
    && forall j :: 0 <= j < i ==> TokenName(tokens[j]) != name
  }

  /**
    The dict keeps first-insertion order: a name first given by token `j`
    comes after the name of every earlier token, however often either is
    assigned again later. `Origin` stays the first key (`ApplyTokens`).
  */
  lemma {:induction false} KeysInFirstOrder(origin: string, tokens: seq<string>, i: int, j: int)
    requires 0 <= i < j < |tokens|
    requires FirstNaming(tokens, TokenName(tokens[j]), j) && TokenName(tokens[j]) != ORIGIN
    ensures var h := ApplyTokens(origin, tokens);
      && TokenName(tokens[i]) in Names(h) && TokenName(tokens[j]) in Names(h)
      && PositionOf(h, TokenName(tokens[i])) < PositionOf(h, TokenName(tokens[j]))
    decreases |tokens|
  {
    var n := |tokens| - 1;
    var before := tokens[..n];
    if j < n {
      FirstNamingInPrefix(tokens, n, j);
      KeysInFirstOrder(origin, before, i, j);
      OrderSurvivesLast(origin, tokens, i, j);
    } else {
      NewNameAfterOthers(origin, tokens, i, j);
    }
  }

  /** Assigning the last token keeps the order of the names of tokens `i` and `j` the earlier tokens placed. */
  lemma OrderSurvivesLast(origin: string, tokens: seq<string>, i: int, j: int)
    requires 0 <= i < |tokens| - 1 && 0 <= j < |tokens| - 1
    requires var before := tokens[..|tokens| - 1];
      var prior := ApplyTokens(origin, before);
      && TokenName(before[i]) in Names(prior) && TokenName(before[j]) in Names(prior)
      && PositionOf(prior, TokenName(before[i])) < PositionOf(prior, TokenName(before[j]))
    ensures var h := ApplyTokens(origin, tokens);
      && TokenName(tokens[i]) in Names(h) && TokenName(tokens[j]) in Names(h)
      && PositionOf(h, TokenName(tokens[i])) < PositionOf(h, TokenName(tokens[j]))
  {
    var before := tokens[..|tokens| - 1];
    var last := tokens[|tokens| - 1];
    assert before[i] == tokens[i] && before[j] == tokens[j];
    PutKeepsOrder(ApplyTokens(origin, before), TokenName(last), TokenValue(last), TokenName(tokens[i]), TokenName(tokens[j]));
  }

  /** A first naming inside a prefix is a first naming of the prefix. */
  lemma FirstNamingInPrefix(tokens: seq<string>, n: int, j: int)
    requires 0 <= j < n <= |tokens| && FirstNaming(tokens, TokenName(tokens[j]), j)
    ensures FirstNaming(tokens[..n], TokenName(tokens[j]), j)
  {
    assert tokens[..n][j] == tokens[j];
    forall k | 0 <= k < j ensures TokenName(tokens[..n][k]) != TokenName(tokens[j]) {
      assert tokens[..n][k] == tokens[k];
    }
  }

  /** The name of the last token `j`, given there first, is placed after the name of every earlier token. */
  lemma NewNameAfterOthers(origin: string, tokens: seq<string>, i: int, j: int)
    requires 0 <= i < j && j == |tokens| - 1
    requires FirstNaming(tokens, TokenName(tokens[j]), j) && TokenName(tokens[j]) != ORIGIN
    ensures var h := ApplyTokens(origin, tokens);
      && TokenName(tokens[i]) in Names(h) && TokenName(tokens[j]) in Names(h)
      && PositionOf(h, TokenName(tokens[i])) < PositionOf(h, TokenName(tokens[j]))
  {
    var before := tokens[..j];
    assert ApplyTokens(origin, tokens) == Put(ApplyTokens(origin, before), TokenName(tokens[j]), TokenValue(tokens[j]));
    assert before[i] == tokens[i];
    EarlierNamePresent(origin, before, i);
    FirstNameIsNew(origin, tokens, j);
    PutAfterOthers(ApplyTokens(origin, before), TokenName(tokens[j]), TokenValue(tokens[j]), TokenName(tokens[i]));
  }

  lemma EarlierNamePresent(origin: string, tokens: seq<string>, i: int)
    requires 0 <= i < |tokens|
    ensures TokenName(tokens[i]) in Names(ApplyTokens(origin, tokens))
  {
  }

  /** A name first given by token `j`, other than `Origin`, is not in the dict the earlier tokens build. */
  lemma FirstNameIsNew(origin: string, tokens: seq<string>, j: int)
    requires 0 <= j < |tokens|
    requires FirstNaming(tokens, TokenName(tokens[j]), j) && TokenName(tokens[j]) != ORIGIN
    ensures TokenName(tokens[j]) !in Names(ApplyTokens(origin, tokens[..j]))
  {
    var before := tokens[..j];
    forall k | 0 <= k < |before| ensures TokenName(before[k]) != TokenName(tokens[j]) {
      assert before[k] == tokens[k];
    }
  }

  lemma PutKeepsOrder(h: HeaderList, name: string, value: string, a: string, b: string)
    requires DistinctNames(h) && a in Names(h) && b in Names(h) && PositionOf(h, a) < PositionOf(h, b)
    ensures a in Names(Put(h, name, value)) && b in Names(Put(h, name, value))
    ensures PositionOf(Put(h, name, value), a) < PositionOf(Put(h, name, value), b)
  {
    PutKeepsPosition(h, name, value, a);
    PutKeepsPosition(h, name, value, b);
  }

  lemma PutAfterOthers(h: HeaderList, name: string, value: string, a: string)
    requires DistinctNames(h) && a in Names(h) && name !in Names(h)
    ensures a in Names(Put(h, name, value)) && name in Names(Put(h, name, value))
    ensures PositionOf(Put(h, name, value), a) < PositionOf(Put(h, name, value), name)
  {
    PutKeepsPosition(h, name, value, a);
    PutNewAtEnd(h, name, value);
  }

  /** Last write wins: a name takes the value of the last token that names it. */
  lemma {:induction false} LastTokenWins(origin: string, tokens: seq<string>, name: string, i: int)
    requires LastNaming(tokens, name, i)
    ensures Get(ApplyTokens(origin, tokens), name) == Some(TokenValue(tokens[i]))
    decreases |tokens|
  {
    var before := tokens[..|tokens| - 1];
    if i < |tokens| - 1 {
      assert LastNaming(before, name, i);
      LastTokenWins(origin, before, name, i);
    }
  }

  /**
    A name no token mentions is absent from the actual request, except
    `Origin`, which keeps the probe's origin.
  */
  lemma {:induction false} UnnamedKeepsDefault(origin: string, tokens: seq<string>, name: string)
    requires forall i :: 0 <= i < |tokens| ==> TokenName(tokens[i]) != name
    ensures Get(ApplyTokens(origin, tokens), name) == if name == ORIGIN then Some(origin) else None
    decreases |tokens|
  {
    if |tokens| > 0 {
      var before := tokens[..|tokens| - 1];
      assert forall i :: 0 <= i < |before| ==> before[i] == tokens[i];
      UnnamedKeepsDefault(origin, before, name);
    }
  }

  /**
    One phase's verdict, the same for the preflight and the actual response
    (cors_checker.py, lines 68-74 and 115-121): the header must be present,
    and its value must be `*` or contain the origin as a substring.
  */
  function EvaluatePhase(origin: string, fields: HeaderList): (v: PhaseVerdict)
    ensures v.corsAllowed <==> exists i :: 0 <= i < |fields| && SameName(fields[i].0, ALLOW_ORIGIN)
    ensures v.originAllowed ==> v.corsAllowed
  {
    match Lookup(fields, ALLOW_ORIGIN)
    case None => PhaseVerdict(false, false)
    case Some(allowed) => PhaseVerdict(true, allowed == "*" || Contains(allowed, origin))
  }

  /**
    A phase admits the origin: both of its booleans hold. The first is implied
    by the second, so this is the second alone.
  */
  predicate Authorizes(origin: string, fields: HeaderList): (ok: bool)
    ensures ok <==> EvaluatePhase(origin, fields).originAllowed
    ensures ok ==> Lookup(fields, ALLOW_ORIGIN).Some?
  {
    var v := EvaluatePhase(origin, fields);
    v.corsAllowed && v.originAllowed
  }

  /** Admission is decided by the last Access-Control-Allow-Origin field, in any letter case. */
  lemma AuthorizesIff(origin: string, fields: HeaderList)
    ensures Authorizes(origin, fields) <==>
      exists i :: 0 <= i < |fields| && SameName(fields[i].0, ALLOW_ORIGIN)
                  && (forall j :: i < j < |fields| ==> !SameName(fields[j].0, ALLOW_ORIGIN))
                  && (fields[i].1 == "*" || exists p: nat :: OccursAt(fields[i].1, origin, p))
  {
    var r := Lookup(fields, ALLOW_ORIGIN);
    if r.Some? {
      var i :| 0 <= i < |fields| && SameName(fields[i].0, ALLOW_ORIGIN) && fields[i].1 == r.value
                 && forall j :: i < j < |fields| ==> !SameName(fields[j].0, ALLOW_ORIGIN);
      ContainsIffOccurs(r.value, origin);
      assert Authorizes(origin, fields) <==> r.value == "*" || exists p: nat :: OccursAt(r.value, origin, p);
      LastIsUnique(fields, ALLOW_ORIGIN, i);
    }
  }

  /** At most one field with a given name has no later field of that name. */
  lemma LastIsUnique(fields: HeaderList, name: string, i: int)
    requires 0 <= i < |fields| && SameName(fields[i].0, name)
    requires forall j :: i < j < |fields| ==> !SameName(fields[j].0, name)
    ensures forall k ::
      (0 <= k < |fields| && SameName(fields[k].0, name)
       && (forall j :: k < j < |fields| ==> !SameName(fields[j].0, name))) ==> k == i
  {
  }

  /** A wildcard header admits every origin. */
  lemma WildcardAuthorizes(origin: string, fields: HeaderList)
    requires Lookup(fields, ALLOW_ORIGIN) == Some("*")
    ensures Authorizes(origin, fields)
  {
  }

  /** A header naming exactly the origin admits it. */
  lemma ExactOriginAuthorizes(origin: string, fields: HeaderList)
    requires Lookup(fields, ALLOW_ORIGIN) == Some(origin)
    ensures Authorizes(origin, fields)
  {
    ContainsIffOccurs(origin, origin);
    assert OccursAt(origin, origin, 0);
  }

  /** Without the header nothing is admitted. */
  lemma MissingHeaderRejects(origin: string, fields: HeaderList)
    requires forall i :: 0 <= i < |fields| ==> !SameName(fields[i].0, ALLOW_ORIGIN)
    ensures !Authorizes(origin, fields)
  {
  }

  /**
    Substring matching is lenient: a header value that merely contains the
    origin admits it, e.g. a value naming a longer host.
  */
  lemma SubstringAdmitsLongerValue(origin: string, suffix: string)
    ensures Authorizes(origin, [(ALLOW_ORIGIN, origin + suffix)])
  {
    var fields := [(ALLOW_ORIGIN, origin + suffix)];
    assert SameName(fields[0].0, ALLOW_ORIGIN);
    ContainsIffOccurs(origin + suffix, origin);
    assert (origin + suffix)[0..|origin|] == origin;
    assert OccursAt(origin + suffix, origin, 0);
  }

  /**
    `check_cors`. An invalid target ends the probe before any request. A
    `RequestException` in either phase yields `False`, and one in the
    preflight means no actual request is sent. `verbose` only decides what is
    printed, so it takes no part in the result.
  */
  function CheckCors(origin: string, target: string, verb: string, tokens: Option<seq<string>>,
                     verbose: bool, preflight: Outcome, actual: Outcome): (p: Probe)
    ensures !Url.ValidateUrl(target) ==> p == Probe(Returned(false), [])
    ensures Url.ValidateUrl(target) ==>
      (|p.requests| > 0 && p.requests[0] == Request(PREFLIGHT_METHOD, target, PreflightHeaders(origin, verb, tokens)))
    ensures |p.requests| <= 2
    ensures |p.requests| == 2 <==> Url.ValidateUrl(target) && preflight.Responded?
    ensures |p.requests| == 2 ==> p.requests[1] == Request(verb, target, ActualHeaders(origin, tokens))
    ensures p.verdict == Returned(true) <==>
      && Url.ValidateUrl(target)
      && preflight.Responded? && Authorizes(origin, preflight.fields)
      && actual.Responded? && Authorizes(origin, actual.fields)
    ensures p.verdict.Raised? <==>
      Url.ValidateUrl(target) && (preflight.OtherFailure? || (preflight.Responded? && actual.OtherFailure?))
    ensures p.verdict.Raised? ==>
      p.verdict.reason == if preflight.OtherFailure? then preflight.reason else actual.reason
  {
    if !Url.ValidateUrl(target) then Probe(Returned(false), [])
    else
      var options := Request(PREFLIGHT_METHOD, target, PreflightHeaders(origin, verb, tokens));
      match preflight
      case RequestFailed(_) => Probe(Returned(false), [options])
      case OtherFailure(e) => Probe(Raised(e), [options])
      case Responded(_, optionsFields) =>
        var first := EvaluatePhase(origin, optionsFields);
        var request := Request(verb, target, ActualHeaders(origin, tokens));
        match actual
        case RequestFailed(_) => Probe(Returned(false), [options, request])
        case OtherFailure(e) => Probe(Raised(e), [options, request])
        case Responded(_, actualFields) =>
          var second := EvaluatePhase(origin, actualFields);
          var result := first.corsAllowed && first.originAllowed && second.corsAllowed && second.originAllowed;
          Probe(Returned(result), [options, request])
  }

  /** The result and the requests are the same whether or not `verbose` is set. */
  lemma VerboseIsOutputOnly(origin: string, target: string, verb: string, tokens: Option<seq<string>>,
                            preflight: Outcome, actual: Outcome)
    ensures CheckCors(origin, target, verb, tokens, true, preflight, actual)
         == CheckCors(origin, target, verb, tokens, false, preflight, actual)
  {
  }

  /**
    The origin is never validated: with a valid target, an origin that is
    not a URL still gets both requests sent and is admitted by wildcards.
  */
  lemma OriginNotValidated(origin: string, target: string, verb: string, tokens: Option<seq<string>>,
                           verbose: bool, s1: int, s2: int)
    requires Url.ValidateUrl(target) && !Url.ValidateUrl(origin)
    ensures CheckCors(origin, target, verb, tokens, verbose,
                      Responded(s1, [(ALLOW_ORIGIN, "*")]), Responded(s2, [(ALLOW_ORIGIN, "*")]))
            == Probe(Returned(true), [Request(PREFLIGHT_METHOD, target, PreflightHeaders(origin, verb, tokens)),
                                      Request(verb, target, ActualHeaders(origin, tokens))])
  {
    assert SameName(ALLOW_ORIGIN, ALLOW_ORIGIN);
  }
}

=== FILE: headers.dfy ===
/**
  The two kinds of header collection the checker handles: the plain Python
  dictionaries it builds for its requests (ordered, exact-match names, later
  assignments overwrite), and the header collection of a response, whose
  names are looked up without regard to case.
*/
module Headers {
  import opened Wrappers
  import opened Text

  /** One header: name and value. */
  type Field = (string, string)

  /** Headers in order, as a Python dict iterates them or as a response lists them. */
  type HeaderList = seq<Field>

  /** No name appears twice, the shape of a Python dict's items. */
  predicate DistinctNames(h: HeaderList) {
    forall i, j :: 0 <= i < j < |h| ==> h[i].0 != h[j].0
  }

  /** The keys of a request header dict. */
  function Names(h: HeaderList): set<string> {
    set i | 0 <= i < |h| :: h[i].0
  }

  /** `d.get(name)` on a request header dict: names compare exactly. */
  function Get(h: HeaderList, name: string): (r: Option<string>)
    ensures r.None? <==> name !in Names(h)
    ensures r.Some? ==> exists i :: 0 <= i < |h| && h[i] == (name, r.value)
  {
    if |h| == 0 then None
    else if h[0].0 == name then Some(h[0].1)
    else
      assert Names(h) == {h[0].0} + Names(h[1..]);
      assert forall i :: 0 <= i < |h[1..]| ==> h[1..][i] == h[i + 1];
      Get(h[1..], name)
  }

  /** In a dict every entry is what a lookup of its own name answers. */
  lemma GetEntry(h: HeaderList, i: int)
    requires DistinctNames(h) && 0 <= i < |h|
    ensures Get(h, h[i].0) == Some(h[i].1)
  {
    assert h[i].0 in Names(h);
  }

  /** The position of `name` in a dict that has it. */
  function PositionOf(h: HeaderList, name: string): (k: nat)
    requires name in Names(h)
    ensures k < |h| && h[k].0 == name
  {
    if h[0].0 == name then 0
    else
      assert Names(h) == {h[0].0} + Names(h[1..]);
      1 + PositionOf(h[1..], name)
  }

  /**
    `d[name] = value`: a name already present keeps its position and takes
    the new value; a new name goes to the end.
  */
  function Put(h: HeaderList, name: string, value: string): (r: HeaderList)
    requires DistinctNames(h)
    ensures DistinctNames(r)
    ensures Get(r, name) == Some(value)
    ensures forall n :: n != name ==> Get(r, n) == Get(h, n)
    ensures Names(r) == Names(h) + {name}
    ensures |r| == if name in Names(h) then |h| else |h| + 1
    ensures forall i :: 0 <= i < |h| ==> r[i] == (if h[i].0 == name then (name, value) else h[i])
    ensures name !in Names(h) ==> r[|h|] == (name, value)
  {
    if name in Names(h) then
      var k := PositionOf(h, name);
      ReplaceFacts(h, k, value);
      h[k := (name, value)]
    else
      AppendFacts(h, name, value);
      h + [(name, value)]
  }

  /** In a dict a name sits at one position only. */
  lemma PositionUnique(h: HeaderList, name: string, k: nat)
    requires DistinctNames(h) && k < |h| && h[k].0 == name
    ensures name in Names(h) && PositionOf(h, name) == k
  {
    assert h[k].0 in Names(h);
  }

  /** Assigning a name leaves every key already present where it was. */
  lemma PutKeepsPosition(h: HeaderList, name: string, value: string, n: string)
    requires DistinctNames(h) && n in Names(h)
    ensures n in Names(Put(h, name, value)) && PositionOf(Put(h, name, value), n) == PositionOf(h, n)
  {
    var r := Put(h, name, value);
    var k := PositionOf(h, n);
    assert r[k].0 == n;
    PositionUnique(r, n, k);
  }

  /** A name not yet present goes after every key already there. */
  lemma PutNewAtEnd(h: HeaderList, name: string, value: string)
    requires DistinctNames(h) && name !in Names(h)
    ensures name in Names(Put(h, name, value)) && PositionOf(Put(h, name, value), name) == |h|
  {
    PositionUnique(Put(h, name, value), name, |h|);
  }

  lemma ReplaceFacts(h: HeaderList, k: nat, value: string)
    requires DistinctNames(h) && k < |h|
    ensures var r := h[k := (h[k].0, value)];
      && DistinctNames(r)
      && Get(r, h[k].0) == Some(value)
      && (forall n :: n != h[k].0 ==> Get(r, n) == Get(h, n))
      && Names(r) == Names(h)
  {
    var name := h[k].0;
    var r := h[k := (name, value)];
    assert forall i :: 0 <= i < |h| ==> r[i].0 == h[i].0;
    assert Names(r) == Names(h);
    GetEntry(r, k);
    forall n | n != name
      ensures Get(r, n) == Get(h, n)
    {
      if n in Names(h) {
        var i :| 0 <= i < |h| && h[i].0 == n;
        GetEntry(h, i);
        GetEntry(r, i);
      }
    }
  }

  lemma AppendFacts(h: HeaderList, name: string, value: string)
    requires DistinctNames(h) && name !in Names(h)
    ensures var r := h + [(name, value)];
      && DistinctNames(r)
      && Get(r, name) == Some(value)
      && (forall n :: n != name ==> Get(r, n) == Get(h, n))
      && Names(r) == Names(h) + {name}
  {
    var r := h + [(name, value)];
    assert forall i :: 0 <= i < |h| ==> r[i] == h[i];
    assert Names(r) == Names(h) + {name} by {
      assert r[|h|].0 == name;
    }
    GetEntry(r, |h|);
    forall n | n != name
      ensures Get(r, n) == Get(h, n)
    {
      if n in Names(h) {
        var i :| 0 <= i < |h| && h[i].0 == n;
        GetEntry(h, i);
        GetEntry(r, i);
      }
    }
  }

  /**
    The value a response reports for `name`: names compare without regard to
    ASCII case, and when a field is repeated the last occurrence answers.
  */
  function Lookup(h: HeaderList, name: string): (r: Option<string>)
    ensures r.None? <==> forall i :: 0 <= i < |h| ==> !SameName(h[i].0, name)
    ensures r.Some? ==> exists i :: 0 <= i < |h| && SameName(h[i].0, name) && h[i].1 == r.value
                                   && forall j :: i < j < |h| ==> !SameName(h[j].0, name)
  {
    if |h| == 0 then None
    else if SameName(h[|h| - 1].0, name) then Some(h[|h| - 1].1)
    else Lookup(h[..|h| - 1], name)
  }

  /** Spelling the name in another case finds the same field. */
  lemma {:induction false} LookupIgnoresCase(h: HeaderList, a: string, b: string)
    requires SameName(a, b)
    ensures Lookup(h, a) == Lookup(h, b)
    decreases |h|
  {
    if |h| > 0 {
      LookupIgnoresCase(h[..|h| - 1], a, b);
    }
  }
}

=== FILE: text.dfy ===
/**
  The Python string operations the CORS checker relies on: `str.strip()`,
  `str.split(sep)`, `sep.join(parts)`, the substring test `a in b` and the
  ASCII part of `str.lower()`.
*/
module Text {

  /** The characters `str.isspace()` accepts, restricted to ASCII. */
  predicate IsSpace(c: char) {
    c == ' ' || c == '\t' || c == '\n' || c == '\r'
    || c == '\U{000B}' || c == '\U{000C}'
    || ('\U{001C}' <= c <= '\U{001F}')
  }

  /** A string with no whitespace at either end, which is what `strip()` produces. */
  predicate Trimmed(s: string) {
    |s| == 0 || (!IsSpace(s[0]) && !IsSpace(s[|s| - 1]))
  }

  /** Every character of `s` from position `lo` up to `hi` is whitespace. */
  predicate SpaceBetween(s: string, lo: int, hi: int) {
    forall k :: lo <= k < hi && 0 <= k < |s| ==> IsSpace(s[k])
  }

  /** Every character of `s` is whitespace. */
  predicate AllSpace(s: string) {
    SpaceBetween(s, 0, |s|)
  }

  /** `s.lstrip()`: the suffix of `s` left after its leading whitespace. */
  function TrimStart(s: string): (r: string)
    ensures |r| <= |s| && r == s[|s| - |r|..]
    ensures SpaceBetween(s, 0, |s| - |r|)
    ensures |r| == 0 || !IsSpace(r[0])
  {
    if |s| > 0 && IsSpace(s[0]) then TrimStart(s[1..]) else s
  }

  /** `s.rstrip()`: the prefix of `s` left before its trailing whitespace. */
  function TrimEnd(s: string): (r: string)
    ensures |r| <= |s| && r == s[..|r|]
    ensures SpaceBetween(s, |r|, |s|)
    ensures |r| == 0 || !IsSpace(r[|r| - 1])
  {
    if |s| > 0 && IsSpace(s[|s| - 1]) then TrimEnd(s[..|s| - 1]) else s
  }

  /** `r` is `s` with only whitespace cut off before position `i` and after `r`. */
  predicate StrippedAt(s: string, r: string, i: nat) {
    i + |r| <= |s| && s[i..i + |r|] == r && SpaceBetween(s, 0, i) && SpaceBetween(s, i + |r|, |s|)
  }

  /** `s.strip()`: a contiguous piece of `s`, with only whitespace cut off around it. */
  function Strip(s: string): (r: string)
    ensures Trimmed(r)
    ensures exists i: nat :: StrippedAt(s, r, i)
  {
    StripWitness(s);
    TrimEnd(TrimStart(s))
  }

  lemma StripWitness(s: string)
    ensures StrippedAt(s, TrimEnd(TrimStart(s)), |s| - |TrimStart(s)|)
  {
    var t := TrimStart(s);
    StrippedAtParts(s, t, TrimEnd(t));
  }

  /** Cutting whitespace off the front of `s` to get `t`, then off the back of `t` to get `r`, strips `s` to `r`. */
  lemma StrippedAtParts(s: string, t: string, r: string)
    requires |t| <= |s| && t == s[|s| - |t|..] && SpaceBetween(s, 0, |s| - |t|)
    requires |r| <= |t| && r == t[..|r|] && SpaceBetween(t, |r|, |t|)
    ensures StrippedAt(s, r, |s| - |t|)
  {
    var i := |s| - |t|;
    SuffixPrefix(s, i, |r|);
    SpaceInSuffix(s, i, |r|);
  }

  lemma SuffixPrefix(s: string, i: nat, n: nat)
    requires i + n <= |s|
    ensures s[i..][..n] == s[i..i + n]
  {
  }

  lemma SpaceInSuffix(s: string, i: nat, lo: nat)
    requires i <= |s| && SpaceBetween(s[i..], lo, |s| - i)
    ensures SpaceBetween(s, i + lo, |s|)
  {
    forall k | i + lo <= k < |s|
      ensures IsSpace(s[k])
    {
      assert s[k] == s[i..][k - i];
    }
  }

  /** Stripping leaves a string alone exactly when it has no whitespace at either end. */
  lemma StripFixesTrimmed(s: string)
    ensures Strip(s) == s <==> Trimmed(s)
  {
  }

  /** Whitespace padding on either side of a trimmed string is exactly what `strip()` removes. */
  lemma {:induction false} StripPadding(left: string, t: string, right: string)
    requires AllSpace(left) && AllSpace(right) && Trimmed(t)
    ensures Strip(left + t + right) == t
  {
    assert left + t + right == left + (t + right);
    TrimStartPadding(left, t + right);
    if |t| == 0 {
      assert t + right == right;
      TrimStartAllSpace(right);
    } else {
      assert (t + right)[0] == t[0];
      TrimEndPadding(t, right);
    }
  }

  lemma {:induction false} TrimStartAllSpace(s: string)
    requires AllSpace(s)
    ensures TrimStart(s) == ""
    decreases |s|
  {
    if |s| > 0 {
      TrimStartAllSpace(s[1..]);
    }
  }

  lemma {:induction false} TrimStartPadding(left: string, u: string)
    requires AllSpace(left)
    ensures TrimStart(left + u) == TrimStart(u)
    decreases |left|
  {
    if |left| == 0 {
      assert left + u == u;
    } else {
      assert (left + u)[1..] == left[1..] + u;
      TrimStartPadding(left[1..], u);
    }
  }

  lemma {:induction false} TrimEndPadding(u: string, right: string)
    requires AllSpace(right)
    requires |u| == 0 || !IsSpace(u[|u| - 1])
    ensures TrimEnd(u + right) == u
    decreases |right|
  {
    if |right| == 0 {
      assert u + right == u;
    } else {
      var n := |u + right|;
      assert (u + right)[..n - 1] == u + right[..|right| - 1];
      TrimEndPadding(u, right[..|right| - 1]);
    }
  }

  /** The number of occurrences of `c` in `s`, Python's `s.count(c)`. */
  function Count(s: string, c: char): (n: nat)
    ensures n == 0 <==> c !in s
    ensures n <= |s|
  {
    if |s| == 0 then 0 else (if s[0] == c then 1 else 0) + Count(s[1..], c)
  }

  lemma {:induction false} CountConcat(a: string, b: string, c: char)
    ensures Count(a + b, c) == Count(a, c) + Count(b, c)
    decreases |a|
  {
    if |a| == 0 {
      assert a + b == b;
    } else {
      assert (a + b)[1..] == a[1..] + b;
      CountConcat(a[1..], b, c);
    }
  }

  /** `s.index(c)`: the position of the first `c`. */
  function IndexOf(s: string, c: char): (k: nat)
    requires c in s
    ensures k < |s| && s[k] == c && c !in s[..k]
  {
    if s[0] == c then 0 else 1 + IndexOf(s[1..], c)
  }

  /**
    `s.split(sep)` for a one-character separator: every occurrence of `sep`
    ends a piece and empty pieces are kept, so there is always one piece
    more than there are separators.
  */
  function Split(s: string, sep: char): (parts: seq<string>)
    ensures |parts| == Count(s, sep) + 1
    ensures forall i :: 0 <= i < |parts| ==> sep !in parts[i]
    decreases |s|
  {
    if sep !in s then [s]
    else
      var k := IndexOf(s, sep);
      assert s == s[..k] + [sep] + s[k + 1..];
      CountConcat(s[..k] + [sep], s[k + 1..], sep);
      CountConcat(s[..k], [sep], sep);
      [s[..k]] + Split(s[k + 1..], sep)
  }

  /** `sep.join(parts)`. */
  function Join(parts: seq<string>, sep: string): (s: string)
    ensures |parts| == 0 ==> s == ""
    ensures |parts| == 1 ==> s == parts[0]
    ensures |parts| > 0 ==> parts[0] <= s
    ensures |parts| > 0 ==> |parts[|parts| - 1]| <= |s| && s[|s| - |parts[|parts| - 1]|..] == parts[|parts| - 1]
  {
    if |parts| == 0 then ""
    else if |parts| == 1 then parts[0]
    else parts[0] + sep + Join(parts[1..], sep)
  }

  /** Joining the pieces of a split with the same separator gives back the original string. */
  lemma {:induction false} JoinSplit(s: string, sep: char)
    ensures Join(Split(s, sep), [sep]) == s
    decreases |s|
  {
    if sep in s {
      var k := IndexOf(s, sep);
      var rest := Split(s[k + 1..], sep);
      JoinSplit(s[k + 1..], sep);
      SplitUnfold(s, sep);
      JoinCons(s[..k], rest, [sep]);
      Around(s, k);
    }
  }

  lemma Around(s: string, k: nat)
    requires k < |s|
    ensures s == s[..k] + [s[k]] + s[k + 1..]
  {
  }

  lemma SplitUnfold(s: string, sep: char)
    requires sep in s
    ensures Split(s, sep) == [s[..IndexOf(s, sep)]] + Split(s[IndexOf(s, sep) + 1..], sep)
  {
  }

  lemma JoinCons(head: string, rest: seq<string>, sep: string)
    requires |rest| > 0
    ensures Join([head] + rest, sep) == head + sep + Join(rest, sep)
  {
    assert ([head] + rest)[1..] == rest;
  }

  /** Splitting a join whose pieces hold no separator recovers the pieces. */
  lemma {:induction false} SplitJoin(parts: seq<string>, sep: char)
    requires |parts| > 0
    requires forall i :: 0 <= i < |parts| ==> sep !in parts[i]
    ensures Split(Join(parts, [sep]), sep) == parts
    decreases |parts|
  {
    if |parts| == 1 {
      SplitFree(parts[0], sep);
      assert parts == [parts[0]];
    } else {
      TailFree(parts, sep);
      SplitJoin(parts[1..], sep);
      SplitJoinStep(parts, sep);
    }
  }

  lemma SplitFree(s: string, sep: char)
    requires sep !in s
    ensures Split(s, sep) == [s]
  {
  }

  lemma SplitJoinStep(parts: seq<string>, sep: char)
    requires |parts| > 1 && sep !in parts[0]
    requires Split(Join(parts[1..], [sep]), sep) == parts[1..]
    ensures Split(Join(parts, [sep]), sep) == parts
  {
    JoinUnfold(parts, [sep]);
    SplitAtFirst(parts[0], Join(parts[1..], [sep]), sep);
    assert parts == [parts[0]] + parts[1..];
  }

  lemma JoinUnfold(parts: seq<string>, sep: string)
    requires |parts| > 1
    ensures Join(parts, sep) == parts[0] + sep + Join(parts[1..], sep)
  {
  }

  lemma TailFree(parts: seq<string>, sep: char)
    requires |parts| > 0
    requires forall i :: 0 <= i < |parts| ==> sep !in parts[i]
    ensures forall i :: 0 <= i < |parts[1..]| ==> sep !in parts[1..][i]
  {
    forall i | 0 <= i < |parts[1..]| ensures sep !in parts[1..][i] {
      assert parts[1..][i] == parts[i + 1];
    }
  }

  lemma SplitAtFirst(a: string, b: string, c: char)
    requires c !in a
    ensures Split(a + [c] + b, c) == [a] + Split(b, c)
  {
    var s := a + [c] + b;
    IndexOfAfterFree(a, [c] + b, c);
    assert s == a + ([c] + b);
    assert s[..|a|] == a;
    assert s[|a| + 1..] == b;
  }

  lemma {:induction false} IndexOfAfterFree(a: string, b: string, c: char)
    requires c !in a && |b| > 0 && b[0] == c
    ensures c in a + b && IndexOf(a + b, c) == |a|
    decreases |a|
  {
    assert (a + b)[|a|] == c;
    if |a| > 0 {
      assert (a + b)[1..] == a[1..] + b;
      IndexOfAfterFree(a[1..], b, c);
    }
  }

  /** `needle in hay` for strings, searched from the front. */
  predicate Contains(hay: string, needle: string): (found: bool)
    ensures needle <= hay ==> found
    ensures found ==> |needle| <= |hay|
    decreases |hay|
  {
    needle <= hay || (|hay| > 0 && Contains(hay[1..], needle))
  }

  /** `needle` sits in `hay` starting at position `i`. */
  predicate OccursAt(hay: string, needle: string, i: nat) {
    i + |needle| <= |hay| && hay[i..i + |needle|] == needle
  }

  /** The search agrees with the definition of a substring: some position where the needle sits. */
  lemma {:induction false} ContainsIffOccurs(hay: string, needle: string)
    ensures Contains(hay, needle) <==> exists i: nat :: OccursAt(hay, needle, i)
    decreases |hay|
  {
    if needle <= hay {
      assert OccursAt(hay, needle, 0);
    } else if |hay| > 0 {
      ContainsIffOccurs(hay[1..], needle);
      if exists i: nat :: OccursAt(hay[1..], needle, i) {
        var i: nat :| OccursAt(hay[1..], needle, i);
        OccursShiftUp(hay, needle, i);
      }
      if exists i: nat :: OccursAt(hay, needle, i) {
        var i: nat :| OccursAt(hay, needle, i);
        OccursShiftDown(hay, needle, i);
      }
    }
  }

  lemma OccursShiftUp(hay: string, needle: string, i: nat)
    requires |hay| > 0 && OccursAt(hay[1..], needle, i)
    ensures OccursAt(hay, needle, i + 1)
  {
    assert hay[1..][i..i + |needle|] == hay[i + 1..i + 1 + |needle|];
  }

  lemma OccursShiftDown(hay: string, needle: string, i: nat)
    requires |hay| > 0 && OccursAt(hay, needle, i) && !(needle <= hay)
    ensures i > 0 && OccursAt(hay[1..], needle, i - 1)
  {
    assert i != 0;
    assert hay[1..][i - 1..i - 1 + |needle|] == hay[i..i + |needle|];
  }

  /** The ASCII part of `str.lower()` on one character. */
  function LowerChar(c: char): char {
    if 'A' <= c <= 'Z' then (c as int + 32) as char else c
  }

  /** `s.lower()` over ASCII. */
  function Lower(s: string): (r: string)
    ensures |r| == |s|
  {
    seq(|s|, i requires 0 <= i < |s| => LowerChar(s[i]))
  }

  /** Header names compare without regard to ASCII case. */
  predicate SameName(a: string, b: string) {
    Lower(a) == Lower(b)
  }
}

=== FILE: url.dfy ===
/**
  `validate_url`: a target is accepted when Python's `urlparse` finds both a
  scheme and a network location in it. The splitting is the part of
  `urllib.parse.urlsplit` that decides those two components.
*/
module Url {
  import opened Wrappers
  import opened Text

  /** The two components `validate_url` inspects. */
  datatype UrlParts = UrlParts(scheme: string, netloc: string)

  predicate IsAsciiLetter(c: char) {
    'a' <= c <= 'z' || 'A' <= c <= 'Z'
  }

  /** `urllib.parse.scheme_chars`: letters, digits and `+ - .`. */
  predicate IsSchemeChar(c: char) {
    IsAsciiLetter(c) || '0' <= c <= '9' || c == '+' || c == '-' || c == '.'
  }

  /** A string `urlsplit` accepts as a scheme: a letter followed by scheme characters. */
  predicate IsSchemeName(s: string) {
    |s| > 0 && IsAsciiLetter(s[0]) && forall k :: 0 <= k < |s| ==> IsSchemeChar(s[k])
  }

  /** The characters that end a network location. */
  predicate IsNetlocDelimiter(c: char) {
    c == '/' || c == '?' || c == '#'
  }

  /** Length of the network location at the front of `s`: up to the first `/`, `?` or `#`. */
  function NetlocLength(s: string): (n: nat)
    ensures n <= |s|
    ensures forall k :: 0 <= k < n ==> !IsNetlocDelimiter(s[k])
    ensures n < |s| ==> IsNetlocDelimiter(s[n])
  {
    if |s| == 0 || IsNetlocDelimiter(s[0]) then 0 else 1 + NetlocLength(s[1..])
  }

  /**
    The scheme, when the text before the first `:` is one, and what follows
    that colon; otherwise no scheme and the whole string.
  */
  function SplitScheme(url: string): (r: (string, string))
  {
    if ':' in url && IsSchemeName(url[..IndexOf(url, ':')]) then
      var i := IndexOf(url, ':');
      (Lower(url[..i]), url[i + 1..])
    else ("", url)
  }

  /**
    `urlsplit(url)` reduced to scheme and network location; `None` stands for
    the `ValueError` it raises on a network location with an unmatched
    square bracket.
  */
  function SplitUrl(url: string): (r: Option<UrlParts>)
    ensures r.None? ==> '[' in url || ']' in url
    ensures r.Some? ==> forall k :: 0 <= k < |r.value.netloc| ==> !IsNetlocDelimiter(r.value.netloc[k])
    ensures r.Some? ==> ('[' in r.value.netloc <==> ']' in r.value.netloc)
    ensures r.Some? && r.value.scheme != "" ==> ':' in url && IsSchemeName(url[..IndexOf(url, ':')])
  {
    var (scheme, rest) := SplitScheme(url);
    if |rest| >= 2 && rest[..2] == "//" then
      var netloc := rest[2..2 + NetlocLength(rest[2..])];
      if ('[' in netloc) != (']' in netloc) then None
      else Some(UrlParts(scheme, netloc))
    else Some(UrlParts(scheme, ""))
  }

  /**
    `validate_url`: a parse failure and a missing component both reject, so
    an accepted URL always starts with a scheme followed by `://` and a
    non-empty network location.
  */
  predicate ValidateUrl(url: string): (ok: bool)
    ensures ok ==> exists i :: 0 < i && i + 3 < |url| && IsSchemeName(url[..i]) && url[i..i + 3] == "://"
                             && !IsNetlocDelimiter(url[i + 3])
  {
    SplitUrlShape(url);
    match SplitUrl(url)
    case None => false
    case Some(p) => p.scheme != "" && p.netloc != ""
  }

  lemma SplitUrlShape(url: string)
    ensures SplitUrl(url).Some? && SplitUrl(url).value.scheme != "" && SplitUrl(url).value.netloc != "" ==>
      exists i :: 0 < i && i + 3 < |url| && IsSchemeName(url[..i]) && url[i..i + 3] == "://"
                  && !IsNetlocDelimiter(url[i + 3])
  {
    var r := SplitUrl(url);
    if r.Some? && r.value.scheme != "" && r.value.netloc != "" {
      var i := IndexOf(url, ':');
      var rest := url[i + 1..];
      assert |rest| >= 2 && rest[..2] == "//";
      assert url[i..i + 3] == [':'] + rest[..2];
      assert NetlocLength(rest[2..]) > 0;
      assert url[i + 3] == rest[2..][0];
    }
  }

  /** A scheme followed by `:` is recognised, whatever comes after the colon. */
  lemma SchemeRecognised(scheme: string, tail: string)
    requires IsSchemeName(scheme)
    ensures SplitScheme(scheme + ":" + tail) == (Lower(scheme), tail)
  {
    var url := scheme + ":" + tail;
    assert ':' !in scheme by {
      forall k | 0 <= k < |scheme| ensures scheme[k] != ':' {
        assert IsSchemeChar(scheme[k]);
      }
    }
    IndexOfAfterFree(scheme, ":" + tail, ':');
    assert url == scheme + (":" + tail);
    assert url[..|scheme|] == scheme;
    assert url[|scheme| + 1..] == tail;
  }

  /**
    Every `scheme://host` URL, followed by nothing or by a path, query or
    fragment, splits back into its scheme (lower-cased) and host, and so is
    accepted.
  */
  lemma ComposedUrlSplits(scheme: string, host: string, rest: string)
    requires IsSchemeName(scheme)
    requires |host| > 0
    requires forall k :: 0 <= k < |host| ==> !IsNetlocDelimiter(host[k]) && host[k] != '[' && host[k] != ']'
    requires |rest| == 0 || IsNetlocDelimiter(rest[0])
    ensures SplitUrl(scheme + "://" + host + rest) == Some(UrlParts(Lower(scheme), host))
    ensures ValidateUrl(scheme + "://" + host + rest)
  {
    ComposedUrlParts(scheme, host, rest);
    assert |Lower(scheme)| == |scheme| > 0;
  }

  lemma ComposedUrlParts(scheme: string, host: string, rest: string)
    requires IsSchemeName(scheme)
    requires forall k :: 0 <= k < |host| ==> !IsNetlocDelimiter(host[k]) && host[k] != '[' && host[k] != ']'
    requires |rest| == 0 || IsNetlocDelimiter(rest[0])
    ensures SplitUrl(scheme + "://" + host + rest) == Some(UrlParts(Lower(scheme), host))
  {
    var after := "//" + host + rest;
    assert scheme + "://" + host + rest == scheme + ":" + after;
    SchemeRecognised(scheme, after);
    AuthorityOf(host, rest);
    assert '[' !in host && ']' !in host by {
      forall k | 0 <= k < |host| ensures host[k] != '[' && host[k] != ']' {
      }
    }
  }

  /** After `//`, the network location runs over the whole host and stops at `rest`. */
  lemma AuthorityOf(host: string, rest: string)
    requires forall k :: 0 <= k < |host| ==> !IsNetlocDelimiter(host[k])
    requires |rest| == 0 || IsNetlocDelimiter(rest[0])
    ensures var after := "//" + host + rest;
      |after| >= 2 && after[..2] == "//" && after[2..2 + NetlocLength(after[2..])] == host
  {
    var after := "//" + host + rest;
    assert after[..2] == "//";
    assert after[2..] == host + rest;
    NetlocLengthOf(host, rest);
    assert after[2..2 + |host|] == host;
  }

  lemma {:induction false} NetlocLengthOf(host: string, rest: string)
    requires forall k :: 0 <= k < |host| ==> !IsNetlocDelimiter(host[k])
    requires |rest| == 0 || IsNetlocDelimiter(rest[0])
    ensures NetlocLength(host + rest) == |host|
    decreases |host|
  {
    if |host| > 0 {
      assert (host + rest)[1..] == host[1..] + rest;
      NetlocLengthOf(host[1..], rest);
    } else {
      assert host + rest == rest;
    }
  }

  /** A string without `:` has no scheme, so it is never accepted ("example.com", "not-a-url"). */
  lemma NoColonRejected(url: string)
    requires ':' !in url
    ensures !ValidateUrl(url)
  {
  }

  /** A string whose scheme is not followed by `//` has no network location ("mailto:a@b.c"). */
  lemma NoAuthorityRejected(scheme: string, rest: string)
    requires IsSchemeName(scheme)
    requires !(|rest| >= 2 && rest[..2] == "//")
    ensures !ValidateUrl(scheme + ":" + rest)
  {
    SchemeRecognised(scheme, rest);
  }

  /** A scheme followed by `://` and no host ("http://", "file:///etc") has an empty network location. */
  lemma EmptyAuthorityRejected(scheme: string, rest: string)
    requires IsSchemeName(scheme)
    requires |rest| == 0 || IsNetlocDelimiter(rest[0])
    ensures !ValidateUrl(scheme + "://" + rest)
  {
    var after := "//" + rest;
    assert scheme + "://" + rest == scheme + ":" + after;
    SchemeRecognised(scheme, after);
    assert "//" + "" + rest == after;
    AuthorityOf("", rest);
    assert SplitUrl(scheme + "://" + rest) == Some(UrlParts(Lower(scheme), ""));
  }
}

=== FILE: wrappers.dfy ===
/** Python's `None`-or-value, used for optional arguments and dictionary lookups. */
module Wrappers {

  datatype Option<+T> = None | Some(value: T)
}
